=== FILE: README.md ===
# Workgrid app: session and authentication layer, modelled in Dafny

This project models the client-side session layer of the Workgrid mobile and
web app. The layer resolves the tenant ("company code"), fetches and caches
that tenant's configuration, and builds an identity-provider client from it.
It then checks for a session and decides whether to show a loading
indicator, the sign-in screen, the application, or an unknown-state alert.
Around that core it models:

- the gate that asks the user to pick a space (a workspace within the tenant);
- the services behind the gate and the cache, all over the device's key-value store;
- the per-tenant and per-space stylesheets;
- the identity-provider client options.

The centre is the reducer of `use-auth-state.ts` (`AuthReducer`). It is a
pure function over an eight-field record with seventeen action types. Every
other type tag leaves the state unchanged. Around it, `AuthHandlers` models
the three resolution effects (company code, then configuration, then
session check) and the five handlers (sign-in, sign-out, token, company-code
change, reset). Each is a function of the settled outcomes
(`Resolved(v) | Rejected(e)`) of the calls it awaits. It returns the new
state and a log. The log records the diagnostics breadcrumbs, the captured
exceptions and the calls into collaborators, in order. Nothing in the model
reads the log to decide anything.

Conventions:

- Storage is a `map<string, string>`.
- The network is an oracle function from a request (URL, plus header where
  one is sent) to a response.
- Thrown values are either a bare string or an `Error` object (class name and
  message). Cancellation detection uses strict equality, so it can tell the
  two apart.
- JavaScript truthiness of optional strings (`undefined` and `""` are both
  falsy) is `Wrappers.Truthy`.
- `??` is `Option.GetOr`.

Modules:

- Shared vocabulary with no source file of its own: `Wrappers` (options,
  results, outcomes, thrown values), `Storage` (the key-value store),
  `Config` (the configuration record), and `AuthTrace` (the diagnostics log).
- use-auth-state.ts is split in two: `AuthReducer` holds the reducer, and
  `AuthHandlers` holds the effects and handlers.
- One module per remaining source file: `AuthView`
  (AuthenticationProvider.tsx), `SpacesProvider` (SpacesProvider.tsx),
  `Spaces` (spaces.ts), `GlobalConfigCache` (global-config.ts),
  `CompanyCode` (company-code.ts), `Theme` (ThemeProvider.tsx),
  `AuthService` (authentication-service.ts), and `App` (the reset
  composition in App.tsx).

Two things in the source are modelled as written:

- **The native cancellation sentinel.** The sentinel at
  `src/components/use-auth-state.ts:314` spells its apostrophe as the three
  characters U+00E2 U+20AC U+2122. This is the UTF-8 bytes of U+2019 read as
  Windows-1252. `AuthHandlers.NativeCancelled` spells it the same way. A
  native rejection that uses a real U+2019 would therefore count as a failure
  and be captured. This may be an encoding artefact of the file rather than
  of the program, so it is not listed as a finding.
- **The startup state after a stored code is fetched.** `company-code-fetched`
  with a stored code sets `loading` and `showSignIn` to false, and
  `authenticated` is still false. Until the configuration effect dispatches
  `global-config-fetching`, a render of that state takes the unknown-state
  branch of the view ladder (`AuthView.FetchedCodeAloneIsUnknownState`). The
  model has no scheduler, so it does not decide whether React renders in
  between.

Three properties one might expect of this code do not hold, and the model
states what the code does instead:

- `global-config-fetched` sets `showSignIn` without clearing
  `authenticated`. So "`authenticated` and `showSignIn` are never both true"
  is not an invariant of the reducer. The contracts state the per-action
  postconditions instead.
- A configuration fetch that yields `undefined` leaves the state loading.
  It does not leave the state as it was before the fetch.
- Staleness of superseded effects is not modelled. The source checks its
  liveness flag only before the first dispatch and in `catch`.

## Model

| member | source | states |
|---|---|---|
| AuthReducer.ReducerBreadcrumb | src/components/use-auth-state.ts:51-53 | each reducer call's breadcrumb is `"use-auth-state reducer action: "` + the type tag; data is attached iff the action carries data, and it is the action's own data |
| AuthReducer.Reduce | src/components/use-auth-state.ts:42-166 | reset yields exactly the initial state; an unknown tag changes nothing; starting actions raise only `loading`; terminal actions leave `loading` false, `authenticated == !showSignIn` and the tenant fields untouched; `company-code-fetched` sets code and default to the same value, with sign-in iff it is absent, while `company-code-changed` leaves the default alone; `global-config-fetched` installs the host, marks the code valid, shows sign-in and installs `factory(config)` without touching `authenticated`; `company-code-fetched-error` clears the code, shows sign-in, stops loading and changes nothing else; `global-config-fetched-error` marks the code invalid, shows sign-in, stops loading and changes nothing else |
| AuthReducer.ReduceIdempotent | src/components/use-auth-state.ts:55-163 | dispatching the same action twice gives the same state as dispatching it once |
| AuthReducer.ReduceAll | src/components/use-auth-state.ts:158-160 | a sequence of actions that ends with a reset ends in the initial state, whatever came before |
| AuthHandlers.Dispatch | src/components/use-auth-state.ts:50-53 | each dispatch appends exactly the action's breadcrumb to the log and then applies the reducer |
| AuthHandlers.FetchCompanyCode | src/components/use-auth-state.ts:210-231 | the fetched code becomes current and default, with sign-in iff there is none; a rejection is captured and gives sign-in with no code; either way loading stops, and the validity flag, host, client and session flag are unchanged; the log is fetching, call, result (or capture, error) in that order |
| AuthHandlers.FetchGlobalConfig | src/components/use-auth-state.ts:243-270 | nothing happens without a truthy code; a configuration is confirmed through `onCompanyCodeChange(code)` before `global-config-fetched` is dispatched; on success it installs the host and client, marks the code valid, shows sign-in, stops loading and changes nothing else; `undefined` adds only an "Invalid company code" breadcrumb and leaves the state loading; a rejection of either call is captured and marks the code invalid, shows sign-in and stops loading, with everything else (the codes, host and client included) unchanged |
| AuthHandlers.AuthenticationCheck | src/components/use-auth-state.ts:282-290 | runs only with a client; an undefined answer counts as false; the answer sets `authenticated` and sign-in opposite to it; a rejection is not caught and leaves the state loading |
| AuthHandlers.CompanyCodeChange | src/components/use-auth-state.ts:299-302 | the entered code becomes current and loading stops; nothing else changes, the default code included |
| AuthHandlers.OnSignIn | src/components/use-auth-state.ts:304-324 | authenticated iff there is no client or login resolved; a rejection strictly equal to one of the two sentinel strings dispatches `authentication-user-cancelled` and captures nothing; any other rejection is captured exactly once and dispatches `authentication-failure` |
| AuthHandlers.OnSignOut | src/components/use-auth-state.ts:326-336 | always ends signed out with sign-in shown and nothing else changed; a rejected logout is captured and still ends in `authentication-signout-success` |
| AuthHandlers.GetAccessToken | src/components/use-auth-state.ts:338-345 | never rejects; returns the client's token; a rejection is captured, dispatches `login-required` exactly once and yields undefined |
| AuthHandlers.Reset | src/components/use-auth-state.ts:347-350 | the state becomes the initial state iff the storage clear (skipped without a client) and the external reset both resolve; otherwise nothing is dispatched and one of the rejections is passed on, which without a client is always the external reset's |
| AuthHandlers.ChangedCodeIsFetched | src/components/use-auth-state.ts:243-248 | after a non-empty code is entered, the configuration effect requests that code's configuration |
| AuthHandlers.StartupWithStoredCode | src/components/use-auth-state.test.ts:123-216 | stored code, configuration and session answer `b` end with `authenticated == b`, sign-in shown iff `!b`, the code as current and default, the tenant's host and client installed, and no exception captured |
| AuthHandlers.StartupWithoutStoredCode | src/components/use-auth-state.test.ts:41-87 | with no stored code, startup stops at sign-in, not loading and not authenticated |
| AuthView.ChooseAuthView | src/components/AuthenticationProvider.tsx:67-131 | loading overrides every flag; authenticated renders the app with `getAccessToken`, the host and `signOut = onSignOut`; otherwise sign-in shows the code, its validity and the default, with network availability true unless known false; with no flag set exactly one breadcrumb (the flag snapshot) and one exception are recorded and reset is the only action |
| AuthView.StartingAndTerminalActionsAvoidUnknownState | src/components/AuthenticationProvider.tsx:67-113 | after any starting or terminal action, the view ladder never reaches the unknown state |
| AuthView.FetchedCodeAloneIsUnknownState | src/components/use-auth-state.ts:63-71 | the state right after a stored code is fetched matches no view and is reported as unknown |
| AuthView.UseAuth | src/components/AuthenticationProvider.tsx:134-142 | the context value inside a provider, the named error outside one |
| SpacesProvider.ReceiveToken | src/components/SpacesProvider.tsx:66-82 | the token from `getAccessToken` becomes the provider's token; the spaces data and current space are unchanged |
| SpacesProvider.GetSpaces | src/components/SpacesProvider.tsx:84-90 | fetches only when both host and token are non-empty, then stores the result and adopts its current space id; otherwise nothing changes |
| SpacesProvider.NoTokenNoRequest | src/components/SpacesProvider.tsx:84-110 | before a token arrives no spaces are requested and the gate shows the loading indicator |
| SpacesProvider.RejectedTokenRequestsNoSpaces | src/components/SpacesProvider.tsx:66-90 | when `getAccessToken`'s token request rejects, the provider receives no token, requests no spaces, and the gate's view does not change |
| SpacesProvider.LoadSpaces | src/components/SpacesProvider.tsx:84-90 | `getSpaces` with the store-backed fetcher: requests exactly when host and token are non-empty, and stores the fetched result as `GetSpaces` does; the stored list is the server's non-empty list or none, with the stored space kept only while listed; only a failed or non-2xx request captures an exception (exactly one); no spaces at all, from a failed request or an OK response listing none, makes the gate as written throw; a non-empty list always yields the selection screen or the application, never the loading indicator |
| SpacesProvider.SpaceSubmit | src/components/SpacesProvider.tsx:112-115 | the id is persisted first and becomes current only once the write succeeded; a failed write changes nothing and rejects |
| SpacesProvider.ChooseSpacesView | src/components/SpacesProvider.tsx:110-151 | loading exactly while there is no data; selection iff the current id is falsy and there are more than one space, with the stored default and current ids, the list, and the submit and refresh callbacks; otherwise the app is rendered with `current ?? spaces[0].id`, the default, the list and `onSpaceChange = spaceSubmit`, and this throws exactly when there is no current space and no space |
| SpacesProvider.FailedFetchBreaksGate | src/components/SpacesProvider.tsx:140-147 | the result of a failed spaces request makes the gate throw |
| SpacesProvider.ChooseSpacesViewIntended | src/services/spaces.ts:27-33 | corrected gate: always yields a view, loading exactly while there is no data; shows selection with no space; hands the app only the current id or a listed id, with `onSpaceChange = spaceSubmit` |
| SpacesProvider.IntendedAgreesWhereDefined | src/components/SpacesProvider.tsx:117-147 | the corrected gate agrees with the gate as written wherever the latter yields a view, apart from an empty current id with no spaces |
| SpacesProvider.UseSpaces | src/components/SpacesProvider.tsx:154-162 | the context value inside a provider, the named error outside one |
| Spaces.FindDefault | src/services/spaces.ts:23-24 | the id of the first space flagged default; absent iff none is flagged |
| Spaces.ContainsId | src/services/spaces.ts:47 | true iff the id is defined and some space has exactly that id |
| Spaces.StoredSpaceId | src/services/spaces.ts:36-40 | the stored current space id, a stored empty string counting as none |
| Spaces.SpacesFetcher | src/services/spaces.ts:7-49 | spaces are the server's non-empty list in order, else empty; the default is the first flagged space; the current id is the stored one iff it is in the returned list; a failed or non-OK request never rejects and captures exactly one exception |
| Spaces.OnSpaceChange | src/services/spaces.ts:51-56 | writes only the `currentSpaceId` key, and reading it back gives the id (none for the empty string) |
| GlobalConfigCache.GlobalConfigFetcher | src/services/global-config.ts:6-45 | a cache hit returns the entry with no request; a miss requests the tenant URL once; an OK response is returned and stored as the old map with only this code's entry set; a corrupt cache is captured once and read as empty; a non-OK or failed request rejects, writes nothing and captures nothing of its own; a failed write is captured and the configuration still returned |
| GlobalConfigCache.FetchThenHit | src/services/global-config.test.ts:49-56 | after a successful lookup whose write succeeded, the same lookup is a cache hit with no request, whatever the network does |
| GlobalConfigCache.ResetGlobalConfig | src/services/global-config.ts:47-49 | removes only the `globalConfig` key, so no later lookup finds a cache |
| CompanyCode.CompanyCodeFetcher | src/services/company-code.ts:5-10 | the stored code, with a missing key and a stored empty string both giving undefined |
| CompanyCode.OnCompanyCodeChange | src/services/company-code.ts:12-17 | writes only the `companyCode` key; a following fetch returns the code (undefined for the empty string) |
| CompanyCode.ResetCompanyCode | src/services/company-code.ts:19-21 | removes only the `companyCode` key; a following fetch returns undefined |
| App.OnReset | src/App.tsx:33-35 | the external reset removes the company code and the configuration cache and keeps the current space id and every other key |
| Theme.FindById | src/components/ThemeProvider.tsx:15 | the selector `#id` finds the first link with that id, and finds none iff no link has it |
| Theme.UpsertStylesheet | src/components/ThemeProvider.tsx:14-27 | an existing link keeps its place and only its href changes; a missing id appends exactly one stylesheet link at the end; the selector then finds the new href; no other id's link changes; unique ids stay unique |
| Theme.RemoveStylesheet | src/components/ThemeProvider.tsx:29-32 | the link found is taken out and the rest keep their order; no-op if absent; other ids unaffected; with unique ids no link with that id remains |
| Theme.UpsertOnlyTouchesId | src/components/ThemeProvider.tsx:14-27 | upserting leaves every link whose id is outside the given set exactly as it was, in order |
| Theme.RemoveOnlyTouchesId | src/components/ThemeProvider.tsx:29-32 | removing leaves every link whose id is outside the given set exactly as it was, in order |
| Theme.ApplyTheme | src/components/ThemeProvider.tsx:41-53 | with a host, the organisation sheet is `host + "/config/styles.css"`, and the space sheet is `host + "/config/" + spaceId + ".css"` or removed without a space; without a host both are removed; every other id's link is unchanged; on an empty head with a host and a space the organisation sheet comes first and the space sheet last |
| Theme.ApplyThemeKeepsOtherLinks | src/components/ThemeProvider.tsx:41-53 | the theme effect leaves every link other than the two managed sheets exactly as it was, in order |
| Theme.ApplyOps | src/components/ThemeProvider.tsx:14-32 | after any sequence of upserts and removes, a head with at most one link per id still has at most one link per id |
| Theme.UseTheme | src/components/ThemeProvider.tsx:60-68 | the context value inside a provider, the named error outside one |
| AuthService.BeforeFirstUnderscore | src/services/authentication-service.ts:21 | `split('_')[0]`: a prefix free of underscores that is the whole id or stops at an underscore |
| AuthService.RegionIsUnique | src/services/authentication-service.ts:21 | that characterisation determines the region part uniquely |
| AuthService.AuthenticationServiceFactory | src/services/authentication-service.ts:15-50 | no user pool throws a TypeError; otherwise the first pool gives the `workgridclient` client id and the Cognito discovery URL, with `authConfig` `cognito` and the fixed scope; `web` uses the localhost redirect and logout URLs; `ios` and `android` use the app scheme and the shared iOS web view; any other platform fails with `"Unsupported platform: " + platform` |
| AuthService.NativePlatformsAgree | src/services/authentication-service.ts:38-46 | iOS and Android receive identical options |

## Findings

| source | as written | input that shows it | evidently intended | confidence | as-written member | corrected member |
|---|---|---|---|---|---|---|
| src/components/SpacesProvider.tsx:117-143 | the selection screen is shown only for more than one space; otherwise the app is given `currentSpaceId ?? spaces[0].id` | `{ spaces: [], currentSpaceId: undefined }`, which is exactly what a failed spaces request returns (src/services/spaces.ts:27-33), and also what an OK response listing no spaces returns (src/services/spaces.ts:22-26, 47); the render throws a TypeError reading `id` of undefined (`SpacesProvider.FailedFetchBreaksGate`; `SpacesProvider.LoadSpaces` derives it from any failed or non-2xx response, and from any OK response listing no spaces, through `spacesFetcher` and `getSpaces`) | with no space, show the selection screen: it has an empty-list text and a refresh action, and the fetcher's comment relies on the user being able to retry | medium, not executed | SpacesProvider.ChooseSpacesView | SpacesProvider.ChooseSpacesViewIntended |

## Left out

- AuthReducer.Reduce: the client factory is a parameter that always returns a client. In the source, `authenticationServiceFactory` runs inside the reducer's `global-config-fetched` case (src/components/use-auth-state.ts:100). It throws when the configuration has no user pool or the platform is unsupported, and that throw escapes the reducer as a React render error, which this model does not describe. `AuthService.AuthenticationServiceFactory` states exactly when the factory throws.
- React scheduling, rendering and hook identity are left out. Effects and handlers are sequential functions of the outcomes of the calls they await. Concurrent interleavings, re-renders and effect re-triggering on dependency changes are not modelled.
- The liveness flag `current` of each effect is left out. The model describes the run of an effect that has not been superseded.
- Sentry's scope tagging (`configureScope`) and its initialisation are left out. Breadcrumbs and captured exceptions are entries of the log.
- The identity-provider client, `fetch`, Capacitor `Storage` and JSON encoding are left out. They are foreign code: their results are parameters (outcomes, network oracles, the `Json` codec). Reads, writes and removals on the device store are assumed to succeed. Two operations are the exceptions: `SpacesProvider.SpaceSubmit` and `GlobalConfigCache.GlobalConfigFetcher` take the outcome of their write as a parameter.
- AuthHandlers.Reset: when both the storage clear and the external reset reject, which rejection `Promise.all` passes on depends on timing. The model passes on the storage clear's, and the contract says only that it is one of the two. Without a client only the external reset runs, and the contract says its rejection is the one passed on.
- GlobalConfigCache.GlobalConfigFetcher: a cached value that parses to something other than an object or `null` (a number, say) is not modelled. Neither is a remote document that is `null`.
- GlobalConfigCache.GlobalConfigFetcher: the cache lookup is own-key membership in the parsed map. The source reads `parsedConfig[companyCode]` as a JavaScript property, which also finds inherited properties. So a company code such as `constructor` or `__proto__` would return a built-in object as the configuration, with no request. The model instead requests that code's URL. Property lookup through the prototype chain is outside the map model of the cache.
- SpacesProvider.ChooseSpacesView: the TypeError message of `NoFirstSpace` is representative. The engine's wording is not specified, and recent engines say "Cannot read properties of undefined (reading 'id')".
- AuthService.AuthenticationServiceFactory: it returns the client options rather than constructing the client. A configuration without a `workgridclient` entry is not modelled, and the TypeError messages are representative: the engine's wording is not specified.
- Theme.UpsertStylesheet: the document is modelled as its head. `upsertStylesheet` searches the whole document, so a link with the same id outside the head is not modelled.
- The effect in AuthenticationProvider.tsx that passes `apiHost` to the theme, and the effect in SpacesProvider.tsx that passes the current space id to it, are left out. They only forward a value into `Theme.ThemeState`.
- The network-status and app-info hooks, localisation, and the pages are left out. They are plumbing and presentation with no decisions of their own.

=== FILE: app.dfy ===
/** The application's composition of the stores' reset callbacks. */
module App {
  import opened Storage
  import CompanyCode
  import GlobalConfigCache
  import Spaces

  /** The external reset handed to the authentication layer: forgets the
      company code and the cached configurations, and keeps the current
      space id and every other key. */
  function OnReset(store: Store): (r: Store)
    ensures CompanyCode.CompanyCodeKey !in r && GlobalConfigCache.GlobalConfigKey !in r
    ensures r.Keys == store.Keys - {CompanyCode.CompanyCodeKey, GlobalConfigCache.GlobalConfigKey}
    ensures forall k :: k in r ==> r[k] == store[k]
    ensures Spaces.StoredSpaceId(r) == Spaces.StoredSpaceId(store)
    ensures CompanyCode.CompanyCodeFetcher(r).None?
  {
    CompanyCode.ResetCompanyCode(GlobalConfigCache.ResetGlobalConfig(store))
  }
}

=== FILE: auth_handlers.dfy ===
/** The handlers and effects around the reducer. Each is one sequential run
    over the settled outcomes of the calls it awaits: it dispatches actions,
    calls its collaborators and records diagnostics, all in the log. */
module AuthHandlers {
  import opened Wrappers
  import opened Config
  import opened AuthTrace
  import opened AuthReducer

  /** The reducer state together with everything observed so far. */
  datatype Machine = Machine(state: AuthReducerState, log: seq<Observation>)

  /** A handler run whose promise settled with `outcome`. */
  datatype Settled<T> = Settled(machine: Machine, outcome: Outcome<T>)

  /** `dispatch`: one breadcrumb for the action, then the reduced state. */
  function Dispatch(factory: GlobalConfig -> ServiceRef, m: Machine, a: Action): (r: Machine)
    ensures r.log == m.log + [ReducerBreadcrumb(a)]
    ensures r.state == Reduce(factory, m.state, a)
  {
    Machine(Reduce(factory, m.state, a), m.log + [ReducerBreadcrumb(a)])
  }

  function Note(m: Machine, o: Observation): Machine {
    m.(log := m.log + [o])
  }

  /** The rejection value of a native sign-in the user dismissed, spelled as
      the source text spells it: the apostrophe appears as the three
      characters U+00E2 U+20AC U+2122. */
  const NativeCancelled := "The operation couldn\U{00E2}\U{20AC}\U{2122}t be completed"

  /** The rejection value of a browser sign-in popup the user closed. */
  const BrowserCancelled := "not authenticated popup window closed without navigating to result url"

  /** Strict equality with one of the two sentinel strings: only a bare string
      rejection can match, never an Error object with the same message. */
  predicate IsCancellation(e: Thrown) {
    e == StringValue(NativeCancelled) || e == StringValue(BrowserCancelled)
  }

  /** `fetchCompanyCode`, the startup effect: the stored code becomes both the
      current and the default code, and sign-in is offered only when there
      is none; a failing read is captured and leads to sign-in without a code. */
  function FetchCompanyCode(factory: GlobalConfig -> ServiceRef, m: Machine, fetched: Outcome<Option<string>>): (r: Machine)
    ensures fetched.Resolved? ==>
      && r.log == m.log + [ReducerBreadcrumb(CompanyCodeFetching), Invoked(CompanyCodeFetcher),
                           ReducerBreadcrumb(CompanyCodeFetched(fetched.value))]
      && r.state == m.state.(companyCode := fetched.value, defaultCompanyCode := fetched.value,
                             showSignIn := fetched.value.None?, loading := false)
    ensures fetched.Rejected? ==>
      && r.log == m.log + [ReducerBreadcrumb(CompanyCodeFetching), Invoked(CompanyCodeFetcher),
                           Captured(fetched.error), ReducerBreadcrumb(CompanyCodeFetchedError)]
      && r.state == m.state.(companyCode := None, showSignIn := true, loading := false)
    ensures !r.state.loading && r.state.authenticated == m.state.authenticated
    ensures r.state.companyCodeIsValid == m.state.companyCodeIsValid
    ensures r.state.apiHost == m.state.apiHost && r.state.authenticationService == m.state.authenticationService
  {
    var m1 := Note(Dispatch(factory, m, CompanyCodeFetching), Invoked(CompanyCodeFetcher));
    match fetched
    case Resolved(code) => Dispatch(factory, m1, CompanyCodeFetched(code))
    case Rejected(e) => Dispatch(factory, Note(m1, Captured(e)), CompanyCodeFetchedError)
  }

  /** `fetchGlobalConfig`, the effect run for a non-empty company code. A
      configuration found for the code is first confirmed to the
      `onCompanyCodeChange` collaborator and only then installed; no
      configuration leaves the state loading with a breadcrumb and no
      further action; a failure is captured and marks the code invalid. */
  function FetchGlobalConfig(factory: GlobalConfig -> ServiceRef, m: Machine,
                             fetched: Outcome<Option<GlobalConfig>>, confirmed: Outcome<()>): (r: Machine)
    ensures !Truthy(m.state.companyCode) ==> r == m
    ensures Truthy(m.state.companyCode) ==>
      var code := m.state.companyCode.value;
      var started := m.log + [ReducerBreadcrumb(GlobalConfigFetching), Invoked(GlobalConfigFetcher(code))];
      && (fetched.Rejected? ==>
            && r.log == started + [Captured(fetched.error), ReducerBreadcrumb(GlobalConfigFetchedError)]
            && r.state == m.state.(companyCodeIsValid := false, showSignIn := true, loading := false))
      && (fetched == Resolved(None) ==>
            && r.log == started + [Breadcrumb("Invalid company code: " + code, None)]
            && r.state == m.state.(loading := true))
      && (fetched.Resolved? && fetched.value.Some? && confirmed.Resolved? ==>
            && r.log == started + [Invoked(OnCompanyCodeChange(code)),
                                   ReducerBreadcrumb(GlobalConfigFetched(fetched.value.value))]
            && r.state == m.state.(apiHost := Some(fetched.value.value.apiHost), companyCodeIsValid := true,
                                   showSignIn := true, loading := false,
                                   authenticationService := Some(factory(fetched.value.value))))
      && (fetched.Resolved? && fetched.value.Some? && confirmed.Rejected? ==>
            && r.log == started + [Invoked(OnCompanyCodeChange(code)), Captured(confirmed.error),
                                   ReducerBreadcrumb(GlobalConfigFetchedError)]
            && r.state == m.state.(companyCodeIsValid := false, showSignIn := true, loading := false))
    ensures r.state.companyCode == m.state.companyCode && r.state.defaultCompanyCode == m.state.defaultCompanyCode
    ensures r.state.authenticated == m.state.authenticated
  {
    if !Truthy(m.state.companyCode) then m
    else
      var code := m.state.companyCode.value;
      var m1 := Note(Dispatch(factory, m, GlobalConfigFetching), Invoked(GlobalConfigFetcher(code)));
      match fetched
      case Rejected(e) => Dispatch(factory, Note(m1, Captured(e)), GlobalConfigFetchedError)
      case Resolved(None) => Note(m1, Breadcrumb("Invalid company code: " + code, None))
      case Resolved(Some(config)) =>
        var m2 := Note(m1, Invoked(OnCompanyCodeChange(code)));
        match confirmed
        case Resolved(_) => Dispatch(factory, m2, GlobalConfigFetched(config))
        case Rejected(e) => Dispatch(factory, Note(m2, Captured(e)), GlobalConfigFetchedError)
  }

  /** `authenticationCheck`, the effect run once a client exists: an
      undefined answer counts as not authenticated. Its rejection is not
      caught, so the state stays loading and the effect's promise rejects. */
  function AuthenticationCheck(factory: GlobalConfig -> ServiceRef, m: Machine, checked: Outcome<Option<bool>>): (r: Settled<()>)
    ensures m.state.authenticationService.None? ==> r == Settled(m, Resolved(()))
    ensures m.state.authenticationService.Some? && checked.Resolved? ==>
      var isAuthenticated := checked.value.GetOr(false);
      && r.outcome.Resolved?
      && r.machine.log == m.log + [ReducerBreadcrumb(IsAuthenticatedStarting), Invoked(ServiceIsAuthenticated),
                                   ReducerBreadcrumb(IsAuthenticatedFinished(isAuthenticated))]
      && r.machine.state.authenticated == isAuthenticated
      && r.machine.state.showSignIn == !isAuthenticated
      && !r.machine.state.loading
    ensures m.state.authenticationService.Some? && checked.Rejected? ==>
      && r.outcome == Rejected(checked.error)
      && r.machine.state == m.state.(loading := true)
      && r.machine.log == m.log + [ReducerBreadcrumb(IsAuthenticatedStarting), Invoked(ServiceIsAuthenticated)]
    ensures SameSession(m.state, r.machine.state)
  {
    if m.state.authenticationService.None? then Settled(m, Resolved(()))
    else
      var m1 := Note(Dispatch(factory, m, IsAuthenticatedStarting), Invoked(ServiceIsAuthenticated));
      match checked
      case Resolved(answer) => Settled(Dispatch(factory, m1, IsAuthenticatedFinished(answer.GetOr(false))), Resolved(()))
      case Rejected(e) => Settled(m1, Rejected(e))
  }

  /** `companyCodeChange`: the code the user entered becomes the current one,
      leaving the default as it was. */
  function CompanyCodeChange(factory: GlobalConfig -> ServiceRef, m: Machine, companyCode: string): (r: Machine)
    ensures r.log == m.log + [ReducerBreadcrumb(CompanyCodeChanged(Some(companyCode)))]
    ensures r.state == m.state.(companyCode := Some(companyCode), loading := false)
    ensures r.state.defaultCompanyCode == m.state.defaultCompanyCode
  {
    Dispatch(factory, m, CompanyCodeChanged(Some(companyCode)))
  }

  /** `onSignIn`: signs in through the client (or succeeds outright when
      there is none). A rejection equal to a cancellation sentinel is not
      captured; any other is captured exactly as it was thrown. Either way
      the run ends with exactly one of authenticated and sign-in. */
  function OnSignIn(factory: GlobalConfig -> ServiceRef, m: Machine, login: Outcome<()>): (r: Machine)
    ensures !r.state.loading && r.state.authenticated == !r.state.showSignIn
    ensures r.state.authenticated <==> m.state.authenticationService.None? || login.Resolved?
    ensures SameSession(m.state, r.state)
    ensures m.state.authenticationService.None? ==>
      r.log == m.log + [ReducerBreadcrumb(AuthenticationStarted), ReducerBreadcrumb(AuthenticationSuccess)]
    ensures m.state.authenticationService.Some? && login.Resolved? ==>
      r.log == m.log + [ReducerBreadcrumb(AuthenticationStarted), Invoked(ServiceLogin),
                        ReducerBreadcrumb(AuthenticationSuccess)]
    ensures m.state.authenticationService.Some? && login.Rejected? && IsCancellation(login.error) ==>
      r.log == m.log + [ReducerBreadcrumb(AuthenticationStarted), Invoked(ServiceLogin),
                        ReducerBreadcrumb(AuthenticationUserCancelled)]
    ensures m.state.authenticationService.Some? && login.Rejected? && !IsCancellation(login.error) ==>
      r.log == m.log + [ReducerBreadcrumb(AuthenticationStarted), Invoked(ServiceLogin),
                        Captured(login.error), ReducerBreadcrumb(AuthenticationFailure)]
  {
    var m1 := Dispatch(factory, m, AuthenticationStarted);
    if m.state.authenticationService.None? then
      Dispatch(factory, m1, AuthenticationSuccess)
    else
      var m2 := Note(m1, Invoked(ServiceLogin));
      match login
      case Resolved(_) => Dispatch(factory, m2, AuthenticationSuccess)
      case Rejected(e) =>
        if IsCancellation(e) then Dispatch(factory, m2, AuthenticationUserCancelled)
        else Dispatch(factory, Note(m2, Captured(e)), AuthenticationFailure)
  }

  /** `onSignOut`: always ends signed out with sign-in shown; a rejected
      logout is captured and otherwise ignored. */
  function OnSignOut(factory: GlobalConfig -> ServiceRef, m: Machine, logout: Outcome<()>): (r: Machine)
    ensures r.state == m.state.(loading := false, authenticated := false, showSignIn := true)
    ensures m.state.authenticationService.None? ==>
      r.log == m.log + [ReducerBreadcrumb(AuthenticationSignoutStarted), ReducerBreadcrumb(AuthenticationSignoutSuccess)]
    ensures m.state.authenticationService.Some? && logout.Resolved? ==>
      r.log == m.log + [ReducerBreadcrumb(AuthenticationSignoutStarted), Invoked(ServiceLogout),
                        ReducerBreadcrumb(AuthenticationSignoutSuccess)]
    ensures m.state.authenticationService.Some? && logout.Rejected? ==>
      r.log == m.log + [ReducerBreadcrumb(AuthenticationSignoutStarted), Invoked(ServiceLogout),
                        Captured(logout.error), ReducerBreadcrumb(AuthenticationSignoutSuccess)]
  {
    var m1 := Dispatch(factory, m, AuthenticationSignoutStarted);
    var m2 :=
      if m.state.authenticationService.None? then m1
      else match logout
        case Resolved(_) => Note(m1, Invoked(ServiceLogout))
        case Rejected(e) => Note(Note(m1, Invoked(ServiceLogout)), Captured(e));
    Dispatch(factory, m2, AuthenticationSignoutSuccess)
  }

  /** `getAccessToken`: the client's token, never a rejection. A failing
      token request is captured, demands a new sign-in exactly once, and
      yields no token. */
  function GetAccessToken(factory: GlobalConfig -> ServiceRef, m: Machine, token: Outcome<Option<string>>): (r: Settled<Option<string>>)
    ensures r.outcome.Resolved?
    ensures m.state.authenticationService.None? ==> r == Settled(m, Resolved(None))
    ensures m.state.authenticationService.Some? && token.Resolved? ==>
      r == Settled(Note(m, Invoked(ServiceGetAccessToken)), Resolved(token.value))
    ensures m.state.authenticationService.Some? && token.Rejected? ==>
      && r.outcome.value.None?
      && r.machine.log == m.log + [Invoked(ServiceGetAccessToken), Captured(token.error), ReducerBreadcrumb(LoginRequired)]
      && r.machine.state == m.state.(loading := false, authenticated := false, showSignIn := true)
    ensures multiset(r.machine.log)[ReducerBreadcrumb(LoginRequired)]
            == multiset(m.log)[ReducerBreadcrumb(LoginRequired)]
               + (if m.state.authenticationService.Some? && token.Rejected? then 1 else 0)
  {
    if m.state.authenticationService.None? then Settled(m, Resolved(None))
    else
      var m1 := Note(m, Invoked(ServiceGetAccessToken));
      match token
      case Resolved(t) => Settled(m1, Resolved(t))
      case Rejected(e) => Settled(Dispatch(factory, Note(m1, Captured(e)), LoginRequired), Resolved(None))
  }

  /** `reset`: clears the client's stored session (when there is a client)
      and runs the external reset together; only when both succeed is the
      state reset, to exactly the initial state. A rejection of either is
      passed on, with nothing dispatched and nothing captured. */
  function Reset(factory: GlobalConfig -> ServiceRef, m: Machine, cleared: Outcome<()>, external: Outcome<()>): (r: Settled<()>)
    ensures r.outcome.Resolved? <==> (m.state.authenticationService.None? || cleared.Resolved?) && external.Resolved?
    ensures r.outcome.Resolved? ==> r.machine.state == InitialState
    ensures r.outcome.Rejected? ==>
      && r.machine.state == m.state
      && ((cleared.Rejected? && r.outcome == cleared) || (external.Rejected? && r.outcome == external))
    // without a client storage is never cleared, so only the external reset can reject
    ensures m.state.authenticationService.None? && r.outcome.Rejected? ==> r.outcome == external
    ensures var calls := (if m.state.authenticationService.Some? then [Invoked(ServiceClearStorage)] else [])
                         + [Invoked(OnReset)];
      r.machine.log == m.log + calls + (if r.outcome.Resolved? then [ReducerBreadcrumb(ResetAuthState)] else [])
  {
    var hasService := m.state.authenticationService.Some?;
    var m1 := if hasService then Note(m, Invoked(ServiceClearStorage)) else m;
    var m2 := Note(m1, Invoked(OnReset));
    if hasService && cleared.Rejected? then Settled(m2, Rejected(cleared.error))
    else if external.Rejected? then Settled(m2, Rejected(external.error))
    else Settled(Dispatch(factory, m2, ResetAuthState), Resolved(()))
  }

  /** Entering a new non-empty company code re-arms the configuration
      effect, which then requests the configuration of that code. */
  lemma ChangedCodeIsFetched(factory: GlobalConfig -> ServiceRef, m: Machine, companyCode: string,
                             fetched: Outcome<Option<GlobalConfig>>, confirmed: Outcome<()>)
    requires companyCode != ""
    ensures var m' := CompanyCodeChange(factory, m, companyCode);
            var r := FetchGlobalConfig(factory, m', fetched, confirmed);
            |r.log| > |m'.log| + 1 && r.log[|m'.log| + 1] == Invoked(GlobalConfigFetcher(companyCode))
  {
  }

  /** Startup with a stored code, a configuration for it and a session
      answer: the app ends up signed in exactly when the session says so,
      showing sign-in otherwise, with the code as both current and default
      and the tenant's API host installed. */
  lemma StartupWithStoredCode(factory: GlobalConfig -> ServiceRef, companyCode: string, config: GlobalConfig,
                              isAuthenticated: bool)
    requires companyCode != ""
    ensures
      var m0 := Machine(InitialState, []);
      var m1 := FetchCompanyCode(factory, m0, Resolved(Some(companyCode)));
      var m2 := FetchGlobalConfig(factory, m1, Resolved(Some(config)), Resolved(()));
      var r := AuthenticationCheck(factory, m2, Resolved(Some(isAuthenticated)));
      && r.machine.state == AuthReducerState(!isAuthenticated, false, isAuthenticated, Some(companyCode), Some(companyCode),
                                             true, Some(factory(config)), Some(config.apiHost))
      && CapturesNothing(r.machine.log)
  {
    var m0 := Machine(InitialState, []);
    var m1 := FetchCompanyCode(factory, m0, Resolved(Some(companyCode)));
    var m2 := FetchGlobalConfig(factory, m1, Resolved(Some(config)), Resolved(()));
    var r := AuthenticationCheck(factory, m2, Resolved(Some(isAuthenticated)));
  }

  /** Startup with no stored code stops at sign-in, nobody authenticated. */
  lemma StartupWithoutStoredCode(factory: GlobalConfig -> ServiceRef)
    ensures var r := FetchCompanyCode(factory, Machine(InitialState, []), Resolved(None));
            !r.state.loading && r.state.showSignIn && !r.state.authenticated
  {
  }
}

=== FILE: auth_reducer.dfy ===
/** The authentication state machine's reducer: a record of eight fields and
    the actions that overwrite some of them. Each call also emits one
    breadcrumb naming the action. */
module AuthReducer {
  import opened Wrappers
  import opened Config
  import opened AuthTrace

  /** An identity-provider client instance, known here only by its identity. */
  datatype ServiceRef = ServiceRef(instance: nat)

  datatype AuthReducerState = AuthReducerState(
    showSignIn: bool,
    loading: bool,
    authenticated: bool,
    companyCode: Option<string>,
    defaultCompanyCode: Option<string>,
    companyCodeIsValid: bool,
    authenticationService: Option<ServiceRef>,
    apiHost: Option<string>)

  /** Loading, nothing shown, a company code presumed valid, nothing known. */
  const InitialState := AuthReducerState(false, true, false, None, None, true, None, None)

  /** The seventeen action types, plus any other type tag (`Unrecognised`),
      which stands for a tag outside the seventeen. */
  datatype Action =
    | CompanyCodeFetching
    | CompanyCodeFetched(companyCode: Option<string>)
    | CompanyCodeChanged(companyCode: Option<string>)
    | CompanyCodeFetchedError
    | GlobalConfigFetching
    | GlobalConfigFetched(globalConfig: GlobalConfig)
    | GlobalConfigFetchedError
    | AuthenticationStarted
    | AuthenticationSuccess
    | AuthenticationUserCancelled
    | AuthenticationFailure
    | LoginRequired
    | AuthenticationSignoutStarted
    | AuthenticationSignoutSuccess
    | IsAuthenticatedStarting
    | IsAuthenticatedFinished(isAuthenticated: bool)
    | ResetAuthState
    | Unrecognised(typeName: string, payload: Option<ActionData>)

  /** The action's `type` tag. */
  function TypeName(a: Action): string {
    match a
    case CompanyCodeFetching => "company-code-fetching"
    case CompanyCodeFetched(_) => "company-code-fetched"
    case CompanyCodeChanged(_) => "company-code-changed"
    case CompanyCodeFetchedError => "company-code-fetched-error"
    case GlobalConfigFetching => "global-config-fetching"
    case GlobalConfigFetched(_) => "global-config-fetched"
    case GlobalConfigFetchedError => "global-config-fetched-error"
    case AuthenticationStarted => "authentication-started"
    case AuthenticationSuccess => "authentication-success"
    case AuthenticationUserCancelled => "authentication-user-cancelled"
    case AuthenticationFailure => "authentication-failure"
    case LoginRequired => "login-required"
    case AuthenticationSignoutStarted => "authentication-signout-started"
    case AuthenticationSignoutSuccess => "authentication-signout-success"
    case IsAuthenticatedStarting => "is-authenticated-starting"
    case IsAuthenticatedFinished(_) => "is-authenticated-finished"
    case ResetAuthState => "reset-auth-state"
    case Unrecognised(t, _) => t
  }

  /** The action's `data` member, when it has one. */
  function Data(a: Action): Option<ActionData> {
    match a
    case CompanyCodeFetched(c) => Some(CompanyCodeData(c))
    case CompanyCodeChanged(c) => Some(CompanyCodeData(c))
    case GlobalConfigFetched(g) => Some(GlobalConfigData(g))
    case IsAuthenticatedFinished(b) => Some(IsAuthenticatedData(b))
    case Unrecognised(_, d) => d
    case _ => None
  }

  const ReducerMessagePrefix := "use-auth-state reducer action: "

  /** The breadcrumb the reducer records for an action: its type tag after a
      fixed prefix, with data attached exactly when the action carries data,
      and that data being the action's own. */
  function ReducerBreadcrumb(a: Action): (o: Observation)
    ensures o.Breadcrumb?
    ensures o.message == ReducerMessagePrefix + TypeName(a)
    ensures o.data.Some? <==>
      a.CompanyCodeFetched? || a.CompanyCodeChanged? || a.GlobalConfigFetched? || a.IsAuthenticatedFinished?
      || (a.Unrecognised? && a.payload.Some?)
    ensures a.CompanyCodeFetched? || a.CompanyCodeChanged? ==> o.data == Some(ActionPayload(CompanyCodeData(a.companyCode)))
    ensures a.IsAuthenticatedFinished? ==> o.data == Some(ActionPayload(IsAuthenticatedData(a.isAuthenticated)))
    ensures a.GlobalConfigFetched? ==> o.data == Some(ActionPayload(GlobalConfigData(a.globalConfig)))
  {
    Breadcrumb(ReducerMessagePrefix + TypeName(a),
               match Data(a) case Some(d) => Some(ActionPayload(d)) case None => None)
  }

  /** Actions that begin an asynchronous step and only raise `loading`. */
  predicate IsStarting(a: Action) {
    a.GlobalConfigFetching? || a.AuthenticationStarted? || a.AuthenticationSignoutStarted? || a.IsAuthenticatedStarting?
  }

  /** Actions that end a sign-in, sign-out, token or session step. */
  predicate IsTerminal(a: Action) {
    a.AuthenticationSuccess? || a.AuthenticationUserCancelled? || a.AuthenticationFailure?
    || a.AuthenticationSignoutSuccess? || a.LoginRequired? || a.IsAuthenticatedFinished?
  }

  /** The two states agree on everything except the three view flags. */
  predicate SameSession(s: AuthReducerState, s': AuthReducerState) {
    && s'.companyCode == s.companyCode
    && s'.defaultCompanyCode == s.defaultCompanyCode
    && s'.companyCodeIsValid == s.companyCodeIsValid
    && s'.authenticationService == s.authenticationService
    && s'.apiHost == s.apiHost
  }

  /** The reducer built from a client factory. */
  function Reduce(factory: GlobalConfig -> ServiceRef, s: AuthReducerState, a: Action): (r: AuthReducerState)
    // reset starts over, whatever came before; an unknown tag changes nothing
    ensures a.ResetAuthState? ==> r == InitialState
    ensures a.Unrecognised? ==> r == s
    // starting actions raise loading and nothing else
    ensures IsStarting(a) ==> r == s.(loading := true)
    // terminal actions settle on exactly one of sign-in and authenticated
    ensures IsTerminal(a) ==>
      && !r.loading
      && r.authenticated == !r.showSignIn
      && r.authenticated == (a.AuthenticationSuccess? || (a.IsAuthenticatedFinished? && a.isAuthenticated))
      && SameSession(s, r)
    // a fetched code is also the default; a changed code leaves the default alone
    ensures a.CompanyCodeFetching? ==> r == s.(loading := true, showSignIn := false)
    ensures a.CompanyCodeFetched? ==>
      && r.companyCode == a.companyCode && r.defaultCompanyCode == a.companyCode
      && (r.showSignIn <==> a.companyCode.None?) && !r.loading
      && r.authenticated == s.authenticated && r.apiHost == s.apiHost
      && r.authenticationService == s.authenticationService && r.companyCodeIsValid == s.companyCodeIsValid
    ensures a.CompanyCodeChanged? ==>
      r == s.(companyCode := a.companyCode, loading := false)
    ensures a.CompanyCodeFetchedError? ==>
      r == s.(companyCode := None, showSignIn := true, loading := false)
    // a fetched configuration installs its host and a fresh client; a failed one only marks the code invalid
    ensures a.GlobalConfigFetched? ==>
      && r.apiHost == Some(a.globalConfig.apiHost)
      && r.authenticationService == Some(factory(a.globalConfig))
      && r.companyCodeIsValid && r.showSignIn && !r.loading
      && r.authenticated == s.authenticated
      && r.companyCode == s.companyCode && r.defaultCompanyCode == s.defaultCompanyCode
    ensures a.GlobalConfigFetchedError? ==>
      r == s.(companyCodeIsValid := false, showSignIn := true, loading := false)
  {
    match a
    case CompanyCodeFetching => s.(loading := true, showSignIn := false)
    case CompanyCodeFetched(c) =>
      s.(companyCode := c, defaultCompanyCode := c, showSignIn := c.None?, loading := false)
    case CompanyCodeChanged(c) => s.(companyCode := c, loading := false)
    case CompanyCodeFetchedError => s.(companyCode := None, showSignIn := true, loading := false)
    case GlobalConfigFetching => s.(loading := true)
    case GlobalConfigFetched(g) =>
      s.(apiHost := Some(g.apiHost), companyCodeIsValid := true, showSignIn := true, loading := false,
         authenticationService := Some(factory(g)))
    case GlobalConfigFetchedError => s.(showSignIn := true, loading := false, companyCodeIsValid := false)
    case AuthenticationSignoutStarted => s.(loading := true)
    case AuthenticationStarted => s.(loading := true)
    case AuthenticationSuccess => s.(authenticated := true, showSignIn := false, loading := false)
    case AuthenticationUserCancelled => s.(authenticated := false, showSignIn := true, loading := false)
    case AuthenticationFailure => s.(authenticated := false, showSignIn := true, loading := false)
    case AuthenticationSignoutSuccess => s.(loading := false, authenticated := false, showSignIn := true)
    case LoginRequired => s.(loading := false, authenticated := false, showSignIn := true)
    case IsAuthenticatedStarting => s.(loading := true)
    case IsAuthenticatedFinished(b) => s.(loading := false, authenticated := b, showSignIn := !b)
    case ResetAuthState => InitialState
    case Unrecognised(_, _) => s
  }

  /** Every case only overwrites fields with values that do not depend on the
      state, so dispatching the same action twice is the same as once. */
  lemma ReduceIdempotent(factory: GlobalConfig -> ServiceRef, s: AuthReducerState, a: Action)
    ensures Reduce(factory, Reduce(factory, s, a), a) == Reduce(factory, s, a)
  {
  }

  /** The state after dispatching a sequence of actions in order. */
  function ReduceAll(factory: GlobalConfig -> ServiceRef, s: AuthReducerState, actions: seq<Action>): (r: AuthReducerState)
    ensures |actions| > 0 && actions[|actions| - 1].ResetAuthState? ==> r == InitialState
    decreases |actions|
  {
    if |actions| == 0 then s
    else ReduceAll(factory, Reduce(factory, s, actions[0]), actions[1..])
  }
}

=== FILE: auth_service.dfy ===
/** The options the identity-provider client (Ionic Auth Connect against
    Amazon Cognito) is constructed with, derived from the tenant
    configuration and the platform the app runs on. */
module AuthService {
  import opened Wrappers
  import opened Config

  /** The options passed to the client constructor. `iosWebView` is set on
      native platforms only. */
  datatype IonicAuthOptions = IonicAuthOptions(
    authConfig: string,
    clientID: string,
    discoveryUrl: string,
    scope: string,
    platform: string,
    redirectUri: string,
    logoutUrl: string,
    iosWebView: Option<string>)

  const Scope := "openid com.workgrid.api/userclient.all"
  const WebRedirect := "http://localhost:8100/login"
  const NativeRedirect := "com.workgrid.client://login"

  /** What indexing the first of no user pools throws. */
  const NoUserPool := ErrorObject("TypeError", "Cannot read property 'clients' of undefined")

  /** `s.split('_')[0]`: the longest prefix of `s` without an underscore. */
  function BeforeFirstUnderscore(s: string): (r: string)
    ensures r <= s
    ensures '_' !in r
    ensures |r| < |s| ==> s[|r|] == '_'
  {
    if |s| == 0 || s[0] == '_' then "" else [s[0]] + BeforeFirstUnderscore(s[1..])
  }

  /** The OpenID discovery document of a Cognito user pool, whose id starts
      with its AWS region and an underscore (`us-east-1_abc`). */
  function DiscoveryUrl(userPoolId: string): string {
    "https://cognito-idp." + BeforeFirstUnderscore(userPoolId) + ".amazonaws.com/" + userPoolId
      + "/.well-known/openid-configuration"
  }

  /** `authenticationServiceFactory`: the first user pool supplies the client
      id and discovery URL; `web` runs against a local redirect, `ios` and
      `android` both use the app scheme and the shared iOS web view, and any
      other platform is rejected by name. The user pool is read before the
      platform is looked at. */
  function AuthenticationServiceFactory(config: GlobalConfig, platform: string): (r: Result<IonicAuthOptions, Thrown>)
    ensures |config.userPools| == 0 ==> r == Failure(NoUserPool)
    ensures |config.userPools| > 0 && platform !in {"web", "ios", "android"} ==>
      r == Failure(ErrorObject("Error", "Unsupported platform: " + platform))
    ensures r.Success? <==> |config.userPools| > 0 && platform in {"web", "ios", "android"}
    ensures r.Success? ==>
      var pool := config.userPools[0];
      && r.value.authConfig == "cognito"
      && r.value.clientID == pool.workgridClientId
      && r.value.discoveryUrl == "https://cognito-idp." + BeforeFirstUnderscore(pool.userPoolId) + ".amazonaws.com/"
                                 + pool.userPoolId + "/.well-known/openid-configuration"
      && r.value.scope == "openid com.workgrid.api/userclient.all"
    ensures r.Success? && platform == "web" ==>
      && r.value.platform == "web"
      && r.value.redirectUri == "http://localhost:8100/login"
      && r.value.logoutUrl == "http://localhost:8100/login"
      && r.value.iosWebView.None?
    ensures r.Success? && platform != "web" ==>
      && r.value.platform == "capacitor"
      && r.value.redirectUri == "com.workgrid.client://login"
      && r.value.logoutUrl == "com.workgrid.client://login"
      && r.value.iosWebView == Some("shared")
  {
    if |config.userPools| == 0 then
      Failure(NoUserPool)
    else
      var pool := config.userPools[0];
      var common := IonicAuthOptions("cognito", pool.workgridClientId, DiscoveryUrl(pool.userPoolId), Scope, "", "", "", None);
      if platform == "web" then
        Success(common.(platform := "web", redirectUri := WebRedirect, logoutUrl := WebRedirect))
      else if platform == "ios" || platform == "android" then
        Success(common.(platform := "capacitor", redirectUri := NativeRedirect, logoutUrl := NativeRedirect,
                        iosWebView := Some("shared")))
      else
        Failure(ErrorObject("Error", "Unsupported platform: " + platform))
  }

  /** iOS and Android receive the same options. */
  lemma NativePlatformsAgree(config: GlobalConfig)
    ensures AuthenticationServiceFactory(config, "ios") == AuthenticationServiceFactory(config, "android")
  {
  }

  /** The region part is determined by the user pool id: any prefix free of
      underscores that is either the whole id or stops at an underscore is it.
      This follows from the contract of `BeforeFirstUnderscore` alone. */
  lemma RegionIsUnique(s: string, region: string)
    requires region <= s && '_' !in region && (|region| < |s| ==> s[|region|] == '_')
    ensures BeforeFirstUnderscore(s) == region
  {
  }
}

=== FILE: auth_trace.dfy ===
/** What the authentication layer leaves behind besides its state: the
    diagnostics breadcrumbs and captured exceptions, and the calls it makes
    into its injected collaborators, in the order they happen. Nothing in the
    model reads this log to decide anything. */
module AuthTrace {
  import opened Wrappers
  import opened Config

  /** The payload of the actions that carry one. */
  datatype ActionData =
    | CompanyCodeData(companyCode: Option<string>)
    | GlobalConfigData(globalConfig: GlobalConfig)
    | IsAuthenticatedData(isAuthenticated: bool)

  /** The data attached to a breadcrumb: an action's payload, or the flag
      snapshot recorded when no view matches the state. */
  datatype BreadcrumbData =
    | ActionPayload(payload: ActionData)
    | StateSnapshot(loading: bool, authenticated: bool, showSignIn: bool, apiHost: Option<string>,
                    companyCode: Option<string>, defaultCompanyCode: Option<string>, companyCodeIsValid: bool)

  /** A call into an injected collaborator or into the identity-provider client. */
  datatype Call =
    | CompanyCodeFetcher
    | GlobalConfigFetcher(companyCode: string)
    | OnCompanyCodeChange(companyCode: string)
    | ServiceIsAuthenticated
    | ServiceLogin
    | ServiceLogout
    | ServiceGetAccessToken
    | ServiceClearStorage
    | OnReset

  datatype Observation =
    | Breadcrumb(message: string, data: Option<BreadcrumbData>)
    | Captured(error: Thrown)
    | Invoked(call: Call)

  predicate CapturesNothing(log: seq<Observation>) {
    forall i :: 0 <= i < |log| ==> !log[i].Captured?
  }
}

=== FILE: auth_view.dfy ===
/** The authentication provider's choice of what to render from the state:
    a loading indicator, the application, the sign-in screen, or, when no
    flag is set, an unknown-state alert that is reported and offers only a
    reset. */
module AuthView {
  import opened Wrappers
  import opened AuthTrace
  import opened AuthReducer
  import AuthHandlers

  /** The handlers the provider wires into what it renders. */
  datatype Handler = SignInHandler | SignOutHandler | AccessTokenHandler | CompanyCodeHandler | ResetHandler

  /** The value the application reads through `useAuth`. */
  datatype AuthContextValue = AuthContextValue(getAccessToken: Handler, apiHost: Option<string>, signOut: Handler)

  /** What the sign-in screen (inside its network splash) is given. */
  datatype SignInProps = SignInProps(
    isNetworkAvailable: bool,
    initialCompanyCode: Option<string>,
    initialCompanyCodeIsValid: bool,
    defaultCompanyCode: Option<string>,
    onSignIn: Handler,
    onCompanyCodeSubmit: Handler)

  datatype AuthView =
    | Loading
    | ProvideAuth(context: AuthContextValue)
    | SignIn(props: SignInProps)
    | UnknownState(buttons: seq<Handler>)

  /** A render: the view chosen and the diagnostics recorded while choosing it. */
  datatype Rendered = Rendered(view: AuthView, log: seq<Observation>)

  const UnknownAuthenticationState := ErrorObject("Error", "Unknown authentication state")

  function Snapshot(s: AuthReducerState): BreadcrumbData {
    StateSnapshot(s.loading, s.authenticated, s.showSignIn, s.apiHost, s.companyCode, s.defaultCompanyCode,
                  s.companyCodeIsValid)
  }

  /** The ladder: loading overrides everything, then authenticated, then
      sign-in; with no flag set the state is reported once (a breadcrumb with
      the flags, then one captured exception) and only a reset is offered.
      `networkConnected` is the last known connection status, if any. */
  function ChooseAuthView(s: AuthReducerState, networkConnected: Option<bool>): (r: Rendered)
    ensures s.loading ==> r == Rendered(Loading, [])
    ensures !s.loading && s.authenticated ==>
      r == Rendered(ProvideAuth(AuthContextValue(AccessTokenHandler, s.apiHost, SignOutHandler)), [])
    ensures !s.loading && !s.authenticated && s.showSignIn ==>
      && r.log == []
      && r.view.SignIn?
      && r.view.props.isNetworkAvailable == (networkConnected != Some(false))
      && r.view.props.initialCompanyCode == s.companyCode
      && r.view.props.initialCompanyCodeIsValid == s.companyCodeIsValid
      && r.view.props.defaultCompanyCode == s.defaultCompanyCode
      && r.view.props.onSignIn == SignInHandler
      && r.view.props.onCompanyCodeSubmit == CompanyCodeHandler
    ensures r.view.UnknownState? <==> !s.loading && !s.authenticated && !s.showSignIn
    ensures r.view.UnknownState? ==>
      && r.view.buttons == [ResetHandler]
      && r.log == [Breadcrumb("auth state", Some(Snapshot(s))), Captured(UnknownAuthenticationState)]
    ensures r.log != [] <==> r.view.UnknownState?
  {
    if s.loading then Rendered(Loading, [])
    else if s.authenticated then
      Rendered(ProvideAuth(AuthContextValue(AccessTokenHandler, s.apiHost, SignOutHandler)), [])
    else if s.showSignIn then
      Rendered(SignIn(SignInProps(networkConnected.GetOr(true), s.companyCode, s.companyCodeIsValid,
                                  s.defaultCompanyCode, SignInHandler, CompanyCodeHandler)), [])
    else
      Rendered(UnknownState([ResetHandler]),
               [Breadcrumb("auth state", Some(Snapshot(s))), Captured(UnknownAuthenticationState)])
  }

  /** After any starting or terminal action the ladder never reaches the
      unknown state. */
  lemma StartingAndTerminalActionsAvoidUnknownState(factory: Config.GlobalConfig -> ServiceRef, s: AuthReducerState,
                                                    a: Action, networkConnected: Option<bool>)
    requires IsStarting(a) || IsTerminal(a)
    ensures !ChooseAuthView(Reduce(factory, s, a), networkConnected).view.UnknownState?
  {
  }

  /** A stored company code, once fetched, leaves all three flags false
      until the configuration effect dispatches its first action: a render
      of that state reports the unknown state. */
  lemma FetchedCodeAloneIsUnknownState(factory: Config.GlobalConfig -> ServiceRef, companyCode: string,
                                       networkConnected: Option<bool>)
    ensures var m := AuthHandlers.FetchCompanyCode(factory, AuthHandlers.Machine(InitialState, []),
                                                   Resolved(Some(companyCode)));
            ChooseAuthView(m.state, networkConnected).view == UnknownState([ResetHandler])
  {
  }

  const UseAuthOutsideProvider := ErrorObject("Error", "useAuth must be used inside a AuthenticationProvider")

  /** `useAuth`: the context value, or a named error outside a provider. */
  function UseAuth(context: Option<AuthContextValue>): (r: Result<AuthContextValue, Thrown>)
    ensures context.Some? <==> r.Success?
    ensures context.Some? ==> r.value == context.value
    ensures context.None? ==> r.error == UseAuthOutsideProvider
  {
    match context
    case Some(c) => Success(c)
    case None => Failure(UseAuthOutsideProvider)
  }
}

=== FILE: company_code.dfy ===
/** The stored tenant identifier ("company code"), kept under one key of the
    device store. */
module CompanyCode {
  import opened Wrappers
  import opened Storage

  const CompanyCodeKey := "companyCode"

  /** `companyCodeFetcher`: the stored code, where a missing key and a stored
      empty string both read as no code. */
  function CompanyCodeFetcher(store: Store): (r: Option<string>)
    ensures r.Some? <==> CompanyCodeKey in store && store[CompanyCodeKey] != ""
    ensures r.Some? ==> r.value == store[CompanyCodeKey] && r.value != ""
  {
    var value := Get(store, CompanyCodeKey);
    if Truthy(value) then value else None
  }

  /** `onCompanyCodeChange`: persists the code, touching no other key. A
      following fetch returns it, unless it is the empty string. */
  function OnCompanyCodeChange(store: Store, companyCode: string): (r: Store)
    ensures SameExcept(store, r, CompanyCodeKey)
    ensures CompanyCodeFetcher(r) == if companyCode == "" then None else Some(companyCode)
  {
    store[CompanyCodeKey := companyCode]
  }

  /** `resetCompanyCode`: forgets the code, touching no other key. */
  function ResetCompanyCode(store: Store): (r: Store)
    ensures SameExcept(store, r, CompanyCodeKey)
    ensures CompanyCodeKey !in r
    ensures CompanyCodeFetcher(r) == None
  {
    store - {CompanyCodeKey}
  }
}

=== FILE: config.dfy ===
/** The tenant ("company") configuration served at
    `https://<company code>.workgrid.com/config/config.json`. */
module Config {

  /** One Cognito user pool and the client id of its `workgridclient` app client. */
  datatype UserPool = UserPool(appDomain: string, userPoolId: string, workgridClientId: string)

  /** The declared tuple type has exactly one user pool; the model allows any
      number so that a malformed document can be described. */
  datatype GlobalConfig = GlobalConfig(userPools: seq<UserPool>, apiHost: string)
}

=== FILE: global_config.dfy ===
/** The tenant-configuration lookup: a per-device cache, stored as one JSON
    object mapping company codes to their configuration, in front of the
    tenant's remote configuration document. */
module GlobalConfigCache {
  import opened Wrappers
  import opened Storage
  import opened Config

  const GlobalConfigKey := "globalConfig"

  /** What the stored value parses to: a map from company code to
      configuration, or the exception parsing raised. A value that parses to
      `null` throws a TypeError when it is indexed by the company code and is
      described as `Corrupt` too. */
  datatype Parsed = Valid(entries: map<string, GlobalConfig>) | Corrupt(error: Thrown)

  /** `JSON.parse` and `JSON.stringify` on the cache value, left abstract. */
  datatype Json = Json(parse: string -> Parsed, stringify: map<string, GlobalConfig> -> string)

  /** The remote configuration request: a 2xx response carrying the document,
      a response with another status, or a request that rejected. */
  datatype Response = Ok(config: GlobalConfig) | NotOk | Failed(error: Thrown)

  /** A settled lookup: the promise's outcome, the store afterwards, the URLs
      requested and the exceptions captured for diagnostics, in order. */
  datatype Lookup = Lookup(result: Outcome<GlobalConfig>, store: Store, requested: seq<string>, captured: seq<Thrown>)

  const NetworkRequestFailed := ErrorObject("Error", "Network request failed")

  function ConfigUrl(companyCode: string): string {
    "https://" + companyCode + ".workgrid.com/config/config.json"
  }

  /** A codec whose output is never empty and parses back to the map written. */
  ghost predicate RoundTrips(json: Json) {
    forall m :: json.stringify(m) != "" && json.parse(json.stringify(m)) == Valid(m)
  }

  /** The stored cache as parsed, or None when no truthy value is stored. */
  function Cached(json: Json, store: Store): Option<Parsed> {
    var value := Get(store, GlobalConfigKey);
    if Truthy(value) then Some(json.parse(value.value)) else None
  }

  /** The map a remote result is merged into: the parsed cache, or `{}`. */
  function CachedEntries(json: Json, store: Store): map<string, GlobalConfig> {
    match Cached(json, store)
    case Some(Valid(entries)) => entries
    case _ => map[]
  }

  /** The exception captured while reading the cache, if it did not parse. */
  function ParseCaptures(json: Json, store: Store): seq<Thrown> {
    match Cached(json, store)
    case Some(Corrupt(e)) => [e]
    case _ => []
  }

  predicate CacheHit(json: Json, store: Store, companyCode: string) {
    companyCode in CachedEntries(json, store)
  }

  /** `globalConfigFetcher`: a cache hit is answered without any request. On a
      miss the tenant's document is requested once; a successful response is
      returned and merged into the cache under this company code alone, a
      failed storage write being captured but not fatal. A failed or non-2xx
      request rejects, writes nothing and captures nothing of its own. */
  function GlobalConfigFetcher(json: Json, network: string -> Response, write: Outcome<()>,
                               store: Store, companyCode: string): (r: Lookup)
    ensures CacheHit(json, store, companyCode) ==>
      r == Lookup(Resolved(CachedEntries(json, store)[companyCode]), store, [], [])
    ensures !CacheHit(json, store, companyCode) ==> r.requested == [ConfigUrl(companyCode)]
    ensures !CacheHit(json, store, companyCode) && network(ConfigUrl(companyCode)).NotOk? ==>
      r == Lookup(Rejected(NetworkRequestFailed), store, [ConfigUrl(companyCode)], ParseCaptures(json, store))
    ensures !CacheHit(json, store, companyCode) && network(ConfigUrl(companyCode)).Failed? ==>
      r == Lookup(Rejected(network(ConfigUrl(companyCode)).error), store, [ConfigUrl(companyCode)], ParseCaptures(json, store))
    ensures !CacheHit(json, store, companyCode) && network(ConfigUrl(companyCode)).Ok? ==>
      && r.result == Resolved(network(ConfigUrl(companyCode)).config)
      && r.store == (if write.Resolved?
                     then store[GlobalConfigKey := json.stringify(CachedEntries(json, store)[companyCode := r.result.value])]
                     else store)
      && r.captured == ParseCaptures(json, store) + (if write.Rejected? then [write.error] else [])
    ensures SameExcept(store, r.store, GlobalConfigKey)
    ensures r.result.Rejected? ==> r.store == store
    ensures RoundTrips(json) && r.result.Resolved? && (CacheHit(json, store, companyCode) || write.Resolved?) ==>
      CachedEntries(json, r.store) == CachedEntries(json, store)[companyCode := r.result.value]
  {
    var entries := CachedEntries(json, store);
    if companyCode in entries then
      Lookup(Resolved(entries[companyCode]), store, [], [])
    else
      var url := ConfigUrl(companyCode);
      var captured := ParseCaptures(json, store);
      match network(url)
      case NotOk => Lookup(Rejected(NetworkRequestFailed), store, [url], captured)
      case Failed(e) => Lookup(Rejected(e), store, [url], captured)
      case Ok(config) =>
        var toSave := entries[companyCode := config];
        match write
        case Resolved(_) =>
          Lookup(Resolved(config), store[GlobalConfigKey := json.stringify(toSave)], [url], captured)
        case Rejected(e) =>
          Lookup(Resolved(config), store, [url], captured + [e])
  }

  /** After a lookup that resolved and whose cache write succeeded, looking the
      same company code up again is a cache hit returning the same document,
      whatever the network would now answer. */
  lemma FetchThenHit(json: Json, network: string -> Response, network': string -> Response,
                     write: Outcome<()>, write': Outcome<()>, store: Store, companyCode: string)
    requires RoundTrips(json)
    requires write.Resolved?
    requires GlobalConfigFetcher(json, network, write, store, companyCode).result.Resolved?
    ensures var first := GlobalConfigFetcher(json, network, write, store, companyCode);
            GlobalConfigFetcher(json, network', write', first.store, companyCode)
            == Lookup(first.result, first.store, [], [])
  {
  }

  /** `resetGlobalConfig`: removes the cache key and nothing else, so the next
      lookup of any company code goes to the network. */
  function ResetGlobalConfig(store: Store): (r: Store)
    ensures SameExcept(store, r, GlobalConfigKey)
    ensures GlobalConfigKey !in r
    ensures forall json: Json :: Cached(json, r) == None
  {
    store - {GlobalConfigKey}
  }
}

=== FILE: spaces.dfy ===
/** The user's spaces (workspaces within a tenant): the list fetched from the
    tenant's API, the default space it flags, and the current space kept in
    the device store. */
module Spaces {
  import opened Wrappers
  import opened Storage

  const CurrentSpaceIdKey := "currentSpaceId"

  /** One entry of the server's list; `isDefault` is its `default` flag. */
  datatype Space = Space(id: string, name: string, isDefault: bool)

  /** What the fetcher hands to the provider. */
  datatype UserSpaces = UserSpaces(currentSpaceId: Option<string>, defaultSpaceId: Option<string>, spaces: seq<Space>)

  /** The spaces request: a 2xx response whose `data` list may be missing, a
      response with another status, or a request (or body decoding) that rejected. */
  datatype Response = Ok(data: Option<seq<Space>>) | NotOk | Failed(error: Thrown)

  /** A settled fetch: the value returned and the exceptions captured. */
  datatype Fetched = Fetched(value: UserSpaces, captured: seq<Thrown>)

  const UnableToFetchSpaces := ErrorObject("Error", "Unable to fetch users spaces")

  predicate HasId(spaces: seq<Space>, id: string) {
    exists i :: 0 <= i < |spaces| && spaces[i].id == id
  }

  /** The id of the first space flagged default (`find(...)?.id`). */
  method FindDefault(spaces: seq<Space>) returns (id: Option<string>)
    ensures id.None? <==> forall i :: 0 <= i < |spaces| ==> !spaces[i].isDefault
    ensures id.Some? ==> exists i :: 0 <= i < |spaces| && spaces[i].isDefault && spaces[i].id == id.value
                                     && forall j :: 0 <= j < i ==> !spaces[j].isDefault
  {
    var i := 0;
    while i < |spaces|
      invariant 0 <= i <= |spaces|
      invariant forall j :: 0 <= j < i ==> !spaces[j].isDefault
    {
      if spaces[i].isDefault {
        return Some(spaces[i].id);
      }
      i := i + 1;
    }
    return None;
  }

  /** Whether some space has exactly the id `id` (`find(space => space.id === id)`);
      `undefined` matches nothing. */
  method ContainsId(spaces: seq<Space>, id: Option<string>) returns (found: bool)
    ensures found <==> id.Some? && HasId(spaces, id.value)
  {
    if id.None? {
      return false;
    }
    var i := 0;
    while i < |spaces|
      invariant 0 <= i <= |spaces|
      invariant forall j :: 0 <= j < i ==> spaces[j].id != id.value
    {
      if spaces[i].id == id.value {
        return true;
      }
      i := i + 1;
    }
    return false;
  }

  /** The stored current space id, a stored empty string reading as none. */
  function StoredSpaceId(store: Store): (r: Option<string>)
    ensures r.Some? <==> CurrentSpaceIdKey in store && store[CurrentSpaceIdKey] != ""
    ensures r.Some? ==> r.value == store[CurrentSpaceIdKey]
  {
    var value := Get(store, CurrentSpaceIdKey);
    if Truthy(value) then value else None
  }

  /** `spacesFetcher`: requests `<apiHost>/v1/userspaces` with the bearer
      token. The returned list is the server's non-empty list unchanged, else
      empty; the default is the first flagged space; the stored current space
      is kept only while the user is still a member of it. A failed or non-2xx
      request never rejects: it yields the empty result and captures exactly
      one exception. */
  method SpacesFetcher(network: (string, string) -> Response, store: Store, apiHost: string, authToken: string)
    returns (r: Fetched)
    ensures var response := network(apiHost + "/v1/userspaces", "Bearer " + authToken);
      && r.value.spaces == (if response.Ok? && response.data.Some? && |response.data.value| > 0
                            then response.data.value else [])
      && (|r.captured| == 1 <==> !response.Ok?)
      && (response.Ok? ==> r.captured == [])
      && (response.NotOk? ==> r.captured == [UnableToFetchSpaces])
      && (response.Failed? ==> r.captured == [response.error])
    ensures r.value.defaultSpaceId.None? <==> forall i :: 0 <= i < |r.value.spaces| ==> !r.value.spaces[i].isDefault
    ensures r.value.defaultSpaceId.Some? ==>
      exists i :: 0 <= i < |r.value.spaces| && r.value.spaces[i].isDefault && r.value.spaces[i].id == r.value.defaultSpaceId.value
                  && forall j :: 0 <= j < i ==> !r.value.spaces[j].isDefault
    ensures r.value.currentSpaceId.Some? <==> StoredSpaceId(store).Some? && HasId(r.value.spaces, StoredSpaceId(store).value)
    ensures r.value.currentSpaceId.Some? ==> r.value.currentSpaceId == StoredSpaceId(store)
  {
    var spaces: seq<Space> := [];
    var defaultSpaceId: Option<string> := None;
    var captured: seq<Thrown> := [];
    match network(apiHost + "/v1/userspaces", "Bearer " + authToken) {
      case Ok(data) =>
        if data.Some? && |data.value| > 0 {
          defaultSpaceId := FindDefault(data.value);
          spaces := data.value;
        }
      case NotOk =>
        captured := [UnableToFetchSpaces];
      case Failed(e) =>
        captured := [e];
    }
    var stored := StoredSpaceId(store);
    var member := ContainsId(spaces, stored);
    r := Fetched(UserSpaces(if member then stored else None, defaultSpaceId, spaces), captured);
  }

  /** `onSpaceChange`: persists the current space id under its own key only. */
  function OnSpaceChange(store: Store, spaceId: string): (r: Store)
    ensures SameExcept(store, r, CurrentSpaceIdKey)
    ensures StoredSpaceId(r) == if spaceId == "" then None else Some(spaceId)
  {
    store[CurrentSpaceIdKey := spaceId]
  }
}

=== FILE: spaces_provider.dfy ===
/** The spaces gate in front of the application: loading until the spaces are
    known, the space-selection screen while no current space is chosen among
    several, and otherwise the application with a current space id. */
module SpacesProvider {
  import opened Wrappers
  import opened Storage
  import opened Spaces
  import Config
  import AuthReducer
  import AuthHandlers

  /** The provider's three pieces of component state. */
  datatype ProviderState = ProviderState(authToken: Option<string>, spacesData: Option<UserSpaces>, currentSpaceId: Option<string>)

  /** Before the first token arrives: no token, no spaces, no current space. */
  const Initial := ProviderState(None, None, None)

  /** The provider's own callbacks handed out to the screens: `spaceSubmit`
      (modelled by `SpaceSubmit`) and `getSpaces` (modelled by `GetSpaces`). */
  datatype SpacesHandler = SpaceSubmitHandler | RefreshHandler

  /** The value handed to the application through the spaces context. */
  datatype SpacesContext = SpacesContext(currentSpaceId: string, defaultSpaceId: Option<string>, spaces: seq<Space>,
                                         onSpaceChange: SpacesHandler)

  datatype SpacesView =
    | Loading
    | SelectSpace(defaultSpaceId: Option<string>, currentSpaceId: Option<string>, spaces: seq<Space>,
                  onSpaceSubmit: SpacesHandler, onRefresh: SpacesHandler)
    | ProvideSpaces(context: SpacesContext)

  /** What rendering throws when it reads the id of the first of no spaces. */
  const NoFirstSpace := ErrorObject("TypeError", "Cannot read property 'id' of undefined")

  /** The token effect: the token returned by `getAccessToken` becomes the provider's token. */
  function ReceiveToken(ps: ProviderState, token: Option<string>): (r: ProviderState)
    ensures r.authToken == token && r.spacesData == ps.spacesData && r.currentSpaceId == ps.currentSpaceId
  {
    ps.(authToken := token)
  }

  /** `getSpaces`: fetches only when both the API host and the token are
      non-empty, then stores the result and adopts its current space id. */
  function GetSpaces(ps: ProviderState, apiHost: Option<string>, fetcher: (string, string) -> UserSpaces): (r: ProviderState)
    ensures Truthy(apiHost) && Truthy(ps.authToken) ==>
      && r.spacesData == Some(fetcher(apiHost.value, ps.authToken.value))
      && r.currentSpaceId == fetcher(apiHost.value, ps.authToken.value).currentSpaceId
      && r.authToken == ps.authToken
    ensures !(Truthy(apiHost) && Truthy(ps.authToken)) ==> r == ps
  {
    if Truthy(apiHost) && Truthy(ps.authToken) then
      var data := fetcher(apiHost.value, ps.authToken.value);
      ps.(spacesData := Some(data), currentSpaceId := data.currentSpaceId)
    else
      ps
  }

  /** Until a token arrives nothing is requested, and the gate shows the
      loading indicator. */
  lemma NoTokenNoRequest(apiHost: Option<string>, fetcher: (string, string) -> UserSpaces)
    ensures GetSpaces(Initial, apiHost, fetcher) == Initial
    ensures ChooseSpacesView(Initial) == Success(Loading)
  {
  }

  /** The token effect fed by `getAccessToken`: when the token request
      rejects, the provider is handed no token and so never requests spaces;
      the gate keeps whatever it showed before. */
  lemma RejectedTokenRequestsNoSpaces(factory: Config.GlobalConfig -> AuthReducer.ServiceRef, m: AuthHandlers.Machine,
                                      e: Thrown, ps: ProviderState, apiHost: Option<string>,
                                      fetcher: (string, string) -> UserSpaces)
    ensures var token := AuthHandlers.GetAccessToken(factory, m, Rejected(e)).outcome.value;
            && token.None?
            && GetSpaces(ReceiveToken(ps, token), apiHost, fetcher) == ps.(authToken := None)
            && ChooseSpacesView(GetSpaces(ReceiveToken(ps, token), apiHost, fetcher)) == ChooseSpacesView(ps)
  {
  }

  /** `getSpaces` with the store-backed `spacesFetcher`. `fetched` is the
      fetcher's settled result, present exactly when a request was made: the
      server's list (or none), the stored space kept only while listed, and a
      capture only for a failed or non-2xx request. No spaces at all, whether
      the request failed or the server listed none, makes the gate as written
      throw once stored; a non-empty list always yields a view. */
  method LoadSpaces(network: (string, string) -> Response, store: Store, ps: ProviderState, apiHost: Option<string>)
    returns (r: ProviderState, fetched: Option<Fetched>)
    ensures fetched.Some? <==> Truthy(apiHost) && Truthy(ps.authToken)
    ensures fetched.None? ==> r == ps
    ensures fetched.Some? ==> r == GetSpaces(ps, apiHost, (host: string, token: string) => fetched.value.value)
    ensures fetched.Some? ==>
      var response := network(apiHost.value + "/v1/userspaces", "Bearer " + ps.authToken.value);
      && fetched.value.value.spaces == (if response.Ok? && response.data.Some? && |response.data.value| > 0
                                        then response.data.value else [])
      && (response.Ok? ==> fetched.value.captured == [])
      && (fetched.value.value.currentSpaceId.Some? <==>
            StoredSpaceId(store).Some? && HasId(fetched.value.value.spaces, StoredSpaceId(store).value))
      // no spaces, whether the request failed or the server listed none: the gate as written throws
      && (fetched.value.value.spaces == [] ==> ChooseSpacesView(r) == Failure(NoFirstSpace))
      && (!response.Ok? ==> ChooseSpacesView(r) == Failure(NoFirstSpace) && |fetched.value.captured| == 1)
      && (response.Ok? && response.data.Some? && |response.data.value| > 0 ==>
            ChooseSpacesView(r).Success? && !ChooseSpacesView(r).value.Loading?)
  {
    if Truthy(apiHost) && Truthy(ps.authToken) {
      var f := SpacesFetcher(network, store, apiHost.value, ps.authToken.value);
      r := GetSpaces(ps, apiHost, (host: string, token: string) => f.value);
      fetched := Some(f);
      if f.value.currentSpaceId.Some? {
        assert HasId(f.value.spaces, f.value.currentSpaceId.value);
      }
    } else {
      r := ps;
      fetched := None;
    }
  }

  /** A space submission settled: the store, the provider state, and the outcome. */
  datatype Submitted = Submitted(store: Store, state: ProviderState, outcome: Outcome<()>)

  /** `spaceSubmit` with the store-backed `onSpaceChange`: the id is persisted
      first and becomes current only once the write has succeeded; a failed
      write changes nothing and rejects. */
  function SpaceSubmit(store: Store, ps: ProviderState, spaceId: string, write: Outcome<()>): (r: Submitted)
    ensures write.Resolved? ==>
      && r.store == OnSpaceChange(store, spaceId)
      && r.state == ps.(currentSpaceId := Some(spaceId))
      && r.outcome.Resolved?
    ensures write.Rejected? ==> r == Submitted(store, ps, Rejected(write.error))
    ensures r.state.currentSpaceId != ps.currentSpaceId ==>
      CurrentSpaceIdKey in r.store && r.store[CurrentSpaceIdKey] == spaceId
  {
    match write
    case Resolved(_) => Submitted(OnSpaceChange(store, spaceId), ps.(currentSpaceId := Some(spaceId)), Resolved(()))
    case Rejected(e) => Submitted(store, ps, Rejected(e))
  }

  /** The gate as the provider renders it. Selection is shown exactly when
      the current space id is falsy and there are more than one space;
      otherwise the application receives `currentSpaceId ?? spaces[0].id`,
      which throws when there is no current space and the list is empty. */
  function ChooseSpacesView(ps: ProviderState): (r: Result<SpacesView, Thrown>)
    ensures ps.spacesData.None? ==> r == Success(Loading)
    ensures ps.spacesData.Some? ==>
      (r.Success? && r.value.SelectSpace? <==> !Truthy(ps.currentSpaceId) && |ps.spacesData.value.spaces| > 1)
    ensures r.Failure? <==>
      ps.spacesData.Some? && ps.currentSpaceId.None? && |ps.spacesData.value.spaces| == 0
    ensures r.Success? && r.value.SelectSpace? ==>
      r.value == SelectSpace(ps.spacesData.value.defaultSpaceId, ps.spacesData.value.currentSpaceId, ps.spacesData.value.spaces,
                             SpaceSubmitHandler, RefreshHandler)
    // once the spaces are known the loading indicator is gone: selection, the application, or a throw
    ensures ps.spacesData.Some? ==> !(r.Success? && r.value.Loading?)
    ensures r.Success? && r.value.ProvideSpaces? ==>
      var data := ps.spacesData.value;
      && (|data.spaces| <= 1 || Truthy(ps.currentSpaceId))
      && r.value.context.defaultSpaceId == data.defaultSpaceId
      && r.value.context.spaces == data.spaces
      && r.value.context.onSpaceChange == SpaceSubmitHandler
      && (ps.currentSpaceId.Some? ==> r.value.context.currentSpaceId == ps.currentSpaceId.value)
      && (ps.currentSpaceId.None? ==> r.value.context.currentSpaceId == data.spaces[0].id)
  {
    match ps.spacesData
    case None => Success(Loading)
    case Some(data) =>
      if !Truthy(ps.currentSpaceId) && |data.spaces| > 1 then
        Success(SelectSpace(data.defaultSpaceId, data.currentSpaceId, data.spaces, SpaceSubmitHandler, RefreshHandler))
      else if ps.currentSpaceId.None? && |data.spaces| == 0 then
        Failure(NoFirstSpace)
      else
        var current := if ps.currentSpaceId.Some? then ps.currentSpaceId.value else data.spaces[0].id;
        Success(ProvideSpaces(SpacesContext(current, data.defaultSpaceId, data.spaces, SpaceSubmitHandler)))
  }

  /** The result of a failed spaces request (no spaces, no current space)
      makes the gate as written throw instead of offering the selection
      screen from which the user could retry. */
  lemma FailedFetchBreaksGate(authToken: Option<string>)
    ensures ChooseSpacesView(ProviderState(authToken, Some(UserSpaces(None, None, [])), None)) == Failure(NoFirstSpace)
  {
  }

  /** The gate as evidently intended: the selection screen (which lists the
      spaces, says when there are none and offers a refresh) is shown whenever
      no space is current and there is not exactly one to fall back on. It
      always yields a view, and the application only ever receives the current
      space id or the id of a listed space. */
  function ChooseSpacesViewIntended(ps: ProviderState): (r: SpacesView)
    ensures ps.spacesData.None? <==> r.Loading?
    ensures ps.spacesData.Some? ==>
      (r.SelectSpace? <==> !Truthy(ps.currentSpaceId) && |ps.spacesData.value.spaces| != 1)
    ensures r.ProvideSpaces? ==>
      && r.context.spaces == ps.spacesData.value.spaces
      && ((ps.currentSpaceId.Some? && r.context.currentSpaceId == ps.currentSpaceId.value)
          || HasId(r.context.spaces, r.context.currentSpaceId))
      && r.context.onSpaceChange == SpaceSubmitHandler
    ensures ps.spacesData.Some? && ps.currentSpaceId.None? && |ps.spacesData.value.spaces| == 0 ==> r.SelectSpace?
  {
    match ps.spacesData
    case None => Loading
    case Some(data) =>
      if !Truthy(ps.currentSpaceId) && |data.spaces| != 1 then
        SelectSpace(data.defaultSpaceId, data.currentSpaceId, data.spaces, SpaceSubmitHandler, RefreshHandler)
      else
        var current := if ps.currentSpaceId.Some? then ps.currentSpaceId.value else data.spaces[0].id;
        ProvideSpaces(SpacesContext(current, data.defaultSpaceId, data.spaces, SpaceSubmitHandler))
  }

  /** Wherever the gate as written yields a view, the intended gate yields the same one. */
  lemma IntendedAgreesWhereDefined(ps: ProviderState)
    requires ChooseSpacesView(ps).Success?
    requires !(ps.spacesData.Some? && ps.currentSpaceId == Some("") && |ps.spacesData.value.spaces| == 0)
    ensures ChooseSpacesViewIntended(ps) == ChooseSpacesView(ps).value
  {
  }

  const UseSpacesOutsideProvider := ErrorObject("Error", "useSpaces must be used inside a SpaceProvider")

  /** `useSpaces`: the context value, or a named error outside a provider. */
  function UseSpaces(context: Option<SpacesContext>): (r: Result<SpacesContext, Thrown>)
    ensures context.Some? <==> r.Success?
    ensures context.Some? ==> r.value == context.value
    ensures context.None? ==> r.error == UseSpacesOutsideProvider
  {
    match context
    case Some(c) => Success(c)
    case None => Failure(UseSpacesOutsideProvider)
  }
}

=== FILE: storage.dfy ===
/** The device's durable key-value store (Capacitor `Storage`) as a map from
    keys to string values. Reads and writes are modelled as always succeeding
    unless a caller is given an explicit write outcome. */
module Storage {
  import opened Wrappers

  type Store = map<string, string>

  /** `Storage.get({ key }).value`, with a missing key read as `undefined`. */
  function Get(store: Store, key: string): Option<string> {
    if key in store then Some(store[key]) else None
  }

  /** True when the two stores agree on every key except `key`. */
  ghost predicate SameExcept(store: Store, store': Store, key: string) {
    && store.Keys - {key} == store'.Keys - {key}
    && forall k :: k in store && k != key ==> k in store' && store'[k] == store[k]
  }
}

=== FILE: theme.dfy ===
/** Per-tenant and per-space stylesheets: `<link>` elements in the document
    head, each found by its element id. The head is modelled as the sequence
    of its links in document order. */
module Theme {
  import opened Wrappers

  datatype Link = Link(id: string, rel: string, href: string)

  type Head = seq<Link>

  const OrganizationIdSelector := "workgrid-organization"
  const SpaceIdSelector := "workgrid-space"

  /** The ThemeProvider's state: what `setApiHost` and `setSpaceId` last received. */
  datatype ThemeState = ThemeState(apiHost: Option<string>, spaceId: Option<string>)

  /** The selector `#id`: the position of the first link with that id. */
  function FindById(head: Head, id: string): (r: Option<nat>)
    ensures r.Some? ==> r.value < |head| && head[r.value].id == id
                        && forall j :: 0 <= j < r.value ==> head[j].id != id
    ensures r.None? <==> forall j :: 0 <= j < |head| ==> head[j].id != id
    decreases |head|
  {
    if |head| == 0 then None
    else if head[0].id == id then Some(0)
    else match FindById(head[1..], id)
      case None => None
      case Some(k) => Some(k + 1)
  }

  /** The href of the link the selector `#id` finds, if any. */
  function Href(head: Head, id: string): Option<string> {
    match FindById(head, id)
    case Some(k) => Some(head[k].href)
    case None => None
  }

  /** At most one link per id. */
  ghost predicate UniqueIds(head: Head) {
    forall i, j :: 0 <= i < j < |head| ==> head[i].id != head[j].id
  }

  /** The head with every link whose id is in `ids` left out. */
  function WithoutIds(head: Head, ids: set<string>): Head {
    if |head| == 0 then []
    else (if head[0].id in ids then [] else [head[0]]) + WithoutIds(head[1..], ids)
  }

  /** `upsertStylesheet`: an existing link keeps its place and only its href
      changes; otherwise one stylesheet link is appended at the end. Either
      way the selector now finds the new href, no other id's link changes,
      and a head with unique ids keeps them. */
  function UpsertStylesheet(head: Head, id: string, href: string): (r: Head)
    ensures FindById(head, id).Some? ==>
      var k := FindById(head, id).value;
      && |r| == |head|
      && r[k] == head[k].(href := href)
      && forall j :: 0 <= j < |head| && j != k ==> r[j] == head[j]
    ensures FindById(head, id).None? ==> r == head + [Link(id, "stylesheet", href)]
    ensures Href(r, id) == Some(href)
    ensures forall other :: other != id ==> Href(r, other) == Href(head, other)
    ensures UniqueIds(head) ==> UniqueIds(r)
  {
    match FindById(head, id)
    case Some(k) =>
      var r := head[k := head[k].(href := href)];
      assert forall other :: other != id ==> FindById(r, other) == FindById(head, other) by {
        forall other | other != id
          ensures FindById(r, other) == FindById(head, other)
        {
          SameIdsSameFind(head, r, other);
        }
      }
      r
    case None =>
      var r := head + [Link(id, "stylesheet", href)];
      assert forall j :: 0 <= j < |head| ==> r[j] == head[j];
      assert r[|head|].id == id;
      assert FindById(r, id) == Some(|head|);
      assert forall other :: other != id ==> FindById(r, other) == FindById(head, other) by {
        forall other | other != id
          ensures FindById(r, other) == FindById(head, other)
        {
          AppendOtherFind(head, Link(id, "stylesheet", href), other);
        }
      }
      r
  }

  /** `removeStylesheet`: the link the selector finds is taken out and the
      rest keep their order; nothing happens when there is none. No other
      id's link changes, and with unique ids no link with this id remains. */
  function RemoveStylesheet(head: Head, id: string): (r: Head)
    ensures FindById(head, id).None? ==> r == head
    ensures FindById(head, id).Some? ==>
      var k := FindById(head, id).value;
      |r| == |head| - 1 && r[..k] == head[..k] && r[k..] == head[k + 1..]
    ensures forall other :: other != id ==> Href(r, other) == Href(head, other)
    ensures UniqueIds(head) ==> UniqueIds(r) && Href(r, id) == None
  {
    match FindById(head, id)
    case None => head
    case Some(k) =>
      var r := head[..k] + head[k + 1..];
      assert forall other :: other != id ==> Href(r, other) == Href(head, other) by {
        forall other | other != id
          ensures Href(r, other) == Href(head, other)
        {
          RemoveOtherFind(head, k, other);
        }
      }
      r
  }

  /** Two heads with the same ids in the same places are searched alike. */
  lemma SameIdsSameFind(a: Head, b: Head, id: string)
    requires |a| == |b|
    requires forall j :: 0 <= j < |a| ==> a[j].id == b[j].id
    ensures FindById(a, id) == FindById(b, id)
  {
  }

  lemma AppendOtherFind(head: Head, link: Link, id: string)
    requires link.id != id
    ensures FindById(head + [link], id) == FindById(head, id)
  {
    var r := head + [link];
    match FindById(head, id)
    case None =>
      assert forall j :: 0 <= j < |r| ==> r[j].id != id by {
        forall j | 0 <= j < |r|
          ensures r[j].id != id
        {
          if j < |head| {
            assert r[j] == head[j];
          }
        }
      }
    case Some(k) =>
      assert r[k] == head[k];
  }

  lemma RemoveOtherFind(head: Head, k: nat, id: string)
    requires k < |head| && head[k].id != id
    ensures Href(head[..k] + head[k + 1..], id) == Href(head, id)
  {
    var r := head[..k] + head[k + 1..];
    assert forall j :: 0 <= j < |r| ==> r[j] == head[if j < k then j else j + 1];
    match FindById(head, id)
    case None =>
    case Some(m) =>
      var m' := if m < k then m else m - 1;
      assert r[m'] == head[m];
      assert FindById(r, id) == Some(m');
  }

  /** The effect run whenever the API host or the space id changes: with a
      (non-empty) API host the organisation sheet points at the host's
      `styles.css` and the space sheet at `<space id>.css`, or is removed
      when there is no space; without a host both sheets are removed. */
  function ApplyTheme(head: Head, theme: ThemeState): (r: Head)
    ensures Truthy(theme.apiHost) ==>
      Href(r, OrganizationIdSelector) == Some(theme.apiHost.value + "/config/styles.css")
    ensures Truthy(theme.apiHost) && Truthy(theme.spaceId) ==>
      Href(r, SpaceIdSelector) == Some(theme.apiHost.value + "/config/" + theme.spaceId.value + ".css")
    ensures UniqueIds(head) && !(Truthy(theme.apiHost) && Truthy(theme.spaceId)) ==>
      Href(r, SpaceIdSelector) == None
    ensures UniqueIds(head) && !Truthy(theme.apiHost) ==> Href(r, OrganizationIdSelector) == None
    ensures forall other :: other != OrganizationIdSelector && other != SpaceIdSelector ==>
      Href(r, other) == Href(head, other)
    ensures UniqueIds(head) ==> UniqueIds(r)
    // on a head without either sheet the organisation sheet is appended first, then the space sheet
    ensures head == [] && Truthy(theme.apiHost) && Truthy(theme.spaceId) ==>
      r == [Link(OrganizationIdSelector, "stylesheet", theme.apiHost.value + "/config/styles.css"),
            Link(SpaceIdSelector, "stylesheet", theme.apiHost.value + "/config/" + theme.spaceId.value + ".css")]
  {
    if Truthy(theme.apiHost) then
      var head' := UpsertStylesheet(head, OrganizationIdSelector, theme.apiHost.value + "/config/styles.css");
      if Truthy(theme.spaceId) then
        UpsertStylesheet(head', SpaceIdSelector, theme.apiHost.value + "/config/" + theme.spaceId.value + ".css")
      else
        RemoveStylesheet(head', SpaceIdSelector)
    else
      RemoveStylesheet(RemoveStylesheet(head, OrganizationIdSelector), SpaceIdSelector)
  }

  lemma {:induction false} WithoutIdsAppend(a: Head, b: Head, ids: set<string>)
    ensures WithoutIds(a + b, ids) == WithoutIds(a, ids) + WithoutIds(b, ids)
    decreases |a|
  {
    if |a| == 0 {
      assert a + b == b;
    } else {
      assert (a + b)[1..] == a[1..] + b;
      WithoutIdsAppend(a[1..], b, ids);
    }
  }

  lemma {:induction false} WithoutIdsReplace(head: Head, k: nat, link: Link, ids: set<string>)
    requires k < |head| && head[k].id in ids && link.id in ids
    ensures WithoutIds(head[k := link], ids) == WithoutIds(head, ids)
    decreases k
  {
    var head' := head[k := link];
    if k == 0 {
      assert head'[1..] == head[1..];
    } else {
      assert head'[0] == head[0];
      assert head'[1..] == head[1..][k - 1 := link];
      WithoutIdsReplace(head[1..], k - 1, link, ids);
    }
  }

  /** Upserting a stylesheet changes nothing outside the links carrying its id. */
  lemma UpsertOnlyTouchesId(head: Head, id: string, href: string, ids: set<string>)
    requires id in ids
    ensures WithoutIds(UpsertStylesheet(head, id, href), ids) == WithoutIds(head, ids)
  {
    match FindById(head, id)
    case Some(k) =>
      WithoutIdsReplace(head, k, head[k].(href := href), ids);
    case None =>
      var link := Link(id, "stylesheet", href);
      WithoutIdsAppend(head, [link], ids);
      assert WithoutIds([link], ids) == [];
  }

  /** Removing a stylesheet changes nothing outside the links carrying its id. */
  lemma RemoveOnlyTouchesId(head: Head, id: string, ids: set<string>)
    requires id in ids
    ensures WithoutIds(RemoveStylesheet(head, id), ids) == WithoutIds(head, ids)
  {
    match FindById(head, id)
    case None =>
    case Some(k) =>
      assert head == head[..k] + ([head[k]] + head[k + 1..]);
      WithoutIdsAppend(head[..k], [head[k]] + head[k + 1..], ids);
      WithoutIdsAppend([head[k]], head[k + 1..], ids);
      WithoutIdsAppend(head[..k], head[k + 1..], ids);
      assert WithoutIds([head[k]], ids) == [];
  }

  /** The theme effect leaves every link other than the two managed sheets
      exactly as it was, in the same order. */
  lemma ApplyThemeKeepsOtherLinks(head: Head, theme: ThemeState)
    ensures var managed := {OrganizationIdSelector, SpaceIdSelector};
            WithoutIds(ApplyTheme(head, theme), managed) == WithoutIds(head, managed)
  {
    var managed := {OrganizationIdSelector, SpaceIdSelector};
    if Truthy(theme.apiHost) {
      var href := theme.apiHost.value + "/config/styles.css";
      var head' := UpsertStylesheet(head, OrganizationIdSelector, href);
      UpsertOnlyTouchesId(head, OrganizationIdSelector, href, managed);
      if Truthy(theme.spaceId) {
        UpsertOnlyTouchesId(head', SpaceIdSelector, theme.apiHost.value + "/config/" + theme.spaceId.value + ".css", managed);
      } else {
        RemoveOnlyTouchesId(head', SpaceIdSelector, managed);
      }
    } else {
      RemoveOnlyTouchesId(head, OrganizationIdSelector, managed);
      RemoveOnlyTouchesId(RemoveStylesheet(head, OrganizationIdSelector), SpaceIdSelector, managed);
    }
  }

  /** One call of the two stylesheet helpers. */
  datatype StylesheetOp = Upsert(id: string, href: string) | Remove(id: string)

  /** The head after a sequence of stylesheet calls, in order. Whatever the
      sequence, a head with at most one link per id keeps that property. */
  function ApplyOps(head: Head, ops: seq<StylesheetOp>): (r: Head)
    ensures UniqueIds(head) ==> UniqueIds(r)
    decreases |ops|
  {
    if |ops| == 0 then head
    else
      var head' := match ops[0]
        case Upsert(id, href) => UpsertStylesheet(head, id, href)
        case Remove(id) => RemoveStylesheet(head, id);
      ApplyOps(head', ops[1..])
  }

  const UseThemeOutsideProvider := ErrorObject("Error", "useTheme must be used inside a ThemeProvider")

  /** `useTheme`: the context value, or a named error outside a provider. */
  function UseTheme<C>(context: Option<C>): (r: Result<C, Thrown>)
    ensures context.Some? <==> r.Success?
    ensures context.Some? ==> r.value == context.value
    ensures context.None? ==> r.error == UseThemeOutsideProvider
  {
    match context
    case Some(c) => Success(c)
    case None => Failure(UseThemeOutsideProvider)
  }
}

=== FILE: wrappers.dfy ===
/** Value shapes shared by every module: optional values, results with an
    error side, the way an awaited promise settles, and the values a
    JavaScript `throw` or promise rejection can carry. */
module Wrappers {

  /** `T | undefined`. */
  datatype Option<+T> = None | Some(value: T) {

    /** The nullish-coalescing operator `this ?? default`. */
    function GetOr(default: T): T {
      match this
      case Some(v) => v
      case None => default
    }
  }

  /** A value, or the error a synchronous call throws instead of returning. */
  datatype Result<+R, +E> = Success(value: R) | Failure(error: E)

  /** A thrown or rejected JavaScript value. Some native plugins reject with a
      bare string; everything else throws an `Error` object, described here by
      its class name (`Error`, `TypeError`, ...) and its message. */
  datatype Thrown = StringValue(text: string) | ErrorObject(name: string, message: string)

  /** How an awaited promise settled. */
  datatype Outcome<+T> = Resolved(value: T) | Rejected(error: Thrown)

  /** JavaScript truthiness of an optional string: `undefined` and `""` are falsy. */
  predicate Truthy(s: Option<string>) {
    s.Some? && s.value != ""
  }
}
